=== FILE: README.md ===
# Transaction ingest: categoriser and upload validator

A Dafny model of the two pieces of logic at the heart of the `main_app`
Django application, and of the records they read.

* **Rule-based categoriser** (`common.py`). `evaluate_rule` tests one
  category rule against a transaction description with one of five
  operators: `equals`, `contains`, `starts_with` and `ends_with` compare
  lower-cased text, and `regex` searches the raw description.
  `get_category` walks the user's categories in ascending priority and
  returns the first one with any matching rule, or the user's
  "uncategorized" category when none matches.
* **Upload validator** (`FileSelectForm.validate_upload` in `forms.py`).
  It skips `start_line` header rows. It then checks each data row in file
  order: the row width against the previous row's width (a width of 0 is
  unconstrained), then the date column under `date_fmt_str`, then the
  amount column as a number. It stops at the first failure. Errors carry
  the line number, counted from `start_line` for the first data row. An
  out-of-range column is an indexing error, not a date or amount error. A
  short file, a blank `start_line` and a missing parse rule all end in the
  generic internal error.
* **Records** (`models.py`). `ParseRule` is the column schema, with its
  blank-able fields as `Option`. `Category` has a name and an integer
  priority. `CategoryRule` has its text, its `match_type` string and the
  id of its owning category. A `Store` holds the category and rule
  tables. It gives the queryset ordering by priority, the
  `rule_set` relation, and deletion with `on_delete=CASCADE`.

Modules: `Wrappers` (Option/Result), `Seqs` (order-preserving filter),
`Text` (lower-casing, stripping, and the `str` prefix, suffix and substring tests),
`Models`, `Categorize`, `Upload`.

Foreign code is passed in as parameters:

* The regular-expression engine is a `Search` function, `(pattern, text) -> bool`.
* `datetime.strptime` and `float()` are the two fields of `Parsers`.
* `Category.get_uncategorized(user)` is the `fallback` argument.
* `ParseRule.objects.get` is an `Option<ParseRule>` argument.

Behaviour this model follows from the code:

* Blank `start_line`. `range(None)` raises `TypeError`, which the bare
  `except` turns into the internal error. So every upload under a rule
  with a blank header count fails.
* Negative values. A negative `start_line` skips no rows, but lines are
  still numbered from it. Negative column indices follow Python's
  negative indexing. The form validators forbid both (`ParseRuleValid`).
* Missing parse rule. The `DoesNotExist` handler builds its message from
  `self.choice.label`. Declared form fields are not instance attributes,
  so this raises `AttributeError`, and the bare `except` turns it into the
  internal error.
* Unknown `match_type`. A rule with any other `match_type` matches
  nothing: the `match` statement falls through and returns `None`.
* Fallback in the walk. `get_category` reads the `rule_set` of every one
  of the user's categories, including the "uncategorized" category itself.
  The model does the same, so a fallback category that owned a matching
  rule would be returned from the walk rather than as the fallback.

## Model

| member | source | states |
|---|---|---|
| `Categorize.EvaluateRule` | src/main_app/common.py:4-15 | `equals` holds iff rule text and description are equal ignoring case; `contains` iff the text occurs at some position of the description ignoring case; `starts_with`/`ends_with` iff it occurs at position 0 / at the end ignoring case; `regex` iff the search finds the pattern in the raw description; an unknown `match_type` never matches |
| `Text.HasPrefix` | src/main_app/common.py:13 | the character-by-character prefix test holds iff `p` occurs in `s` at position 0 |
| `Text.HasSuffix` | src/main_app/common.py:15 | the suffix test holds iff `p` occurs in `s` at position `len(s) - len(p)` |
| `Text.HasSubstring` | src/main_app/common.py:9 | the left-to-right substring search holds iff `p` occurs in `s` at some position |
| `Text.LowerOccurs` | src/main_app/common.py:9 | an occurrence in the lower-cased texts is exactly an occurrence ignoring case |
| `Text.Lower` | src/main_app/common.py:7-15 | `str.lower()`: the result has the input's length and each character is that character lower-cased (ASCII letters only) |
| `Categorize.AnyMatch` | src/main_app/common.py:19 | `any` over a rule list holds iff some rule in the list matches |
| `Categorize.FirstIndex` | src/main_app/common.py:18-20 | the loop's stopping position: nothing before it satisfies the test, and the element there does unless the end was reached |
| `Categorize.FirstIsLeastPriority` | src/main_app/common.py:18-20 | over priority-ordered categories, the first one that passes has the least priority of all that pass |
| `Categorize.GetCategory` | src/main_app/common.py:17-21 | when some category of the user matches, the result is such a category with the least priority; when none matches, the result is the fallback (never absent) |
| `Categorize.EarliestMatchWins` | src/main_app/common.py:18-20 | if the category at position i of the iteration order matches, the result is at position i or earlier, never later |
| `Categorize.EmptyRuleSetNeverMatches` | src/main_app/common.py:19 | a category with no rules never matches and is never returned (unless it is the fallback) |
| `Categorize.RuleOrderIrrelevant` | src/main_app/common.py:19 | permuting the rule table does not change the category returned |
| `Categorize.PriorityExample` | src/main_app/common.py:17-21 | "coffee shop" with `contains coffee` at priority 1 (stored second) and `contains cof` at priority 2 gets the priority-1 category |
| `Categorize.ContainsExample` | src/main_app/common.py:8-9 | `contains "coffee"` matches "coffee shop" |
| `Categorize.StartsWithExample` | src/main_app/common.py:12-13 | `starts_with "AMZN"` matches "amzn marketplace pmt" but not "pmt to amzn" |
| `Models.CleanRequired` | src/main_app/models.py:8-9 | a required `CharField` (`name`, `date_fmt_str`, and likewise a category's `name` and a rule's `match_text`) cleans its input by stripping surrounding whitespace: it is refused as required iff the input is blank, accepted iff it is non-blank and its stripped text fits `max_length`, and an accepted value is the input with only whitespace cut from both ends, stripped, non-empty and within length |
| `Models.CleanOptional` | src/main_app/models.py:10 | the nullable `csv_delim` field: a blank input (including whitespace only) is stored as null, an over-long stripped input is refused as too long, and a stored value is a stripped non-empty text within `max_length` |
| `Models.CleanRequiredFixes` | src/main_app/models.py:8-9 | a text re-cleans to itself iff it is stripped, non-empty and within `max_length`, so those are exactly the values a required text field can hold |
| `Models.BlankTextRefused` | src/main_app/models.py:8-10 | whitespace-only text never passes as a parse rule's name, date format or delimiter, a category's name or a rule's text |
| `Models.ParseRuleValid` | src/main_app/models.py:8-16 | the stored values of a parse rule that passed field validation: name (at most 50) and date format (at most 30) cleaned as required text, a delimiter that is null or one non-whitespace character, and a non-negative header count and column indices |
| `Models.OperatorOf` | src/main_app/models.py:40-42 | a stored `match_type` reads as an operator only when it is that operator's spelling; any other string is no operator |
| `Models.OperatorRoundTrip` | src/main_app/models.py:40 | every one of the five operators reads back from its stored spelling |
| `Models.NewRule` | src/main_app/models.py:42 | a rule created without an operator is a `contains` rule, and it passes validation iff its text is a value the required `match_text` field can hold |
| `Models.InsertByPriority` | src/main_app/models.py:31 | inserting into a priority-ordered list keeps it ordered and adds exactly the new category |
| `Models.SortByPriority` | src/main_app/models.py:30-31 | the queryset ordering is priority-ordered and a permutation of the stored categories |
| `Models.UserCategories` | src/main_app/common.py:18 | the categories walked are exactly the user's stored categories, in ascending priority |
| `Models.RuleSet` | src/main_app/models.py:43 | a category's `rule_set` holds exactly the stored rules whose category is that category |
| `Models.DeleteCategory` | src/main_app/models.py:43 | deleting a category removes it and exactly its rules, leaves every other category's rule set unchanged, and preserves referential integrity and the field validity of both tables |
| `Upload.PyIndex` | src/main_app/forms.py:63 | `row[i]` succeeds iff `-len(row) <= i < len(row)`, and then yields the field at `i` taken modulo the row length, so a negative `i` counts from the back |
| `Upload.CheckRow` | src/main_app/forms.py:61-78 | a row passes iff the date field exists and parses and the amount field exists and parses; a missing date field is an indexing error; a present date that does not parse is a date error; a good date with a missing amount field is an indexing error; a good date with a present amount that does not parse is the amount error carrying the line, `amount_col` and the raw value; an amount error means the date passed |
| `Upload.ScanRows` | src/main_app/forms.py:53-74 | the loop accepts exactly the rows it was given; every error it reports is on one of its lines, and a width error is never on the first line when no width is yet fixed |
| `Upload.ValidateUpload` | src/main_app/forms.py:39-80 | a blank header count or too short a file gives the internal error and nothing else does; success returns exactly the rows after the header; a row error is reported at a line from `start_line` on, and a width error never at `start_line` |
| `Upload.ValidateChoice` | src/main_app/forms.py:39-80 | the whole form check gives the internal error exactly when the parse rule is not found, its header count is blank, or the file is shorter than the header count; on success it returns exactly the rows after the header |
| `Upload.ScanRowsFrom` | src/main_app/forms.py:55-74 | from any data row on, the loop succeeds iff no later row has a verdict against it, and otherwise reports the verdict on the first such row |
| `Upload.ValidateUploadSpec` | src/main_app/forms.py:50-78 | validation succeeds iff every data row passes its width, date and amount checks; otherwise it fails with the first failing row's verdict, at line `start_line` plus that row's position |
| `Upload.ScanRowsStops` | src/main_app/forms.py:55-74 | once the loop fails, rows after the failing one do not change its result |
| `Upload.AbortOnFirstError` | src/main_app/forms.py:55-78 | after a row-level error, appending rows to the file leaves the outcome unchanged |
| `Upload.HeaderRowsUnread` | src/main_app/forms.py:50-53 | files that differ only in their header rows get the same outcome |
| `Upload.IndexErrorMeansShortRow` | src/main_app/forms.py:63-78 | under the form constraints, the indexing error means the row is too short for the date column, or the date parsed and the row is too short for the amount column |
| `Upload.WidthExample` | src/main_app/forms.py:57-58 | a three-row file whose second row is one field short fails with the width error at line 1 |
| `Upload.ShortFileExample` | src/main_app/forms.py:50-51 | a file with fewer rows than the header count gives the internal error |
| `Upload.AppendedRows` | src/main_app/forms.py:73 | the rows appended to `csv_rows` are a prefix of the data rows: all of them on success, and on failure exactly the rows before the failing line |
| `Upload.SharedRowsAfter` | src/main_app/forms.py:28 | a call only ever adds to the shared `csv_rows`: on success exactly the accepted rows, on the internal error nothing, and on a row error exactly the data rows before the failing row |
| `Upload.SharedRowsLeak` | src/main_app/forms.py:28 | after an upload that fails on its second row, the next successful upload's `csv_rows` also holds the failed upload's first row |

## Findings

| source | as written | input that shows it | evidently intended | confidence | as-written member | corrected member |
|---|---|---|---|---|---|---|
| src/main_app/forms.py:28 | `csv_rows = []` is a class attribute, so `self.csv_rows.append(row)` adds to one list shared by every form and every upload, and rows accepted before a failing row stay there | upload `[["d","1"],["d"]]` (fails at line 1), then `[["d","1","x"]]`: the list is `[["d","1"],["d","1","x"]]` | each upload yields only its own rows, and a failed upload yields none | high, not executed | `Upload.SharedRowsLeak` | `Upload.ValidateUploadSpec` |

The rest of the model uses `Upload.ValidateUpload`. Its accepted rows are
its return value: on success exactly the upload's data rows, and on
failure none.

## Left out

- Byte decoding and CSV splitting (`io.TextIOWrapper`, `csv.reader`): the validator takes rows already split into fields. Decoding and reader errors would end in the internal error through the bare `except`. They are not modelled. `csv_delim` is never passed to the reader, so no delimiter is modelled.
- `datetime.strptime` and `float()` are the caller-supplied `Parsers`. The regular-expression engine is the caller-supplied `Search`. No date or amount value is computed.
- Categorize.EvaluateRule: an invalid `regex` pattern makes `re.search` raise out of `get_category`; the model takes the search as a total function and does not model that exception.
- Text.Lower: lower-cases ASCII letters only, while Python's `str.lower()` folds all of Unicode, some characters into two.
- Models.SortByPriority: categories of equal priority keep their table order. The database does not fix that order.
- ORM lookups (`ParseRule.objects.get`, `Category.objects.filter`) are arguments. `Category.get_uncategorized` is not part of this model, so the fallback category is an argument too.
- Determinism of categorisation is not stated as a lemma: every member is a pure function, so it holds by construction.
- Field validators are stated as predicates on the cleaned, stored values (`ParseRuleValid`, `CategoryValid`, `CategoryRuleValid`, gathered for the tables in `StoreValid`), not enforced on the tables. The form cleaning that produces those values is `CleanRequired` and `CleanOptional`. The name-uniqueness constraints and the owning `user` of parse rules are not modelled.
- Text.Strip: strips the ASCII whitespace that `str.isspace` accepts (space, `\t` to `\r`, and 0x1C to 0x1F). Python's `str.strip()` also strips non-ASCII whitespace, such as U+00A0 and U+2028.
- `ParseRuleForm`, `get_rules` and `FileSelectForm.clean` (form plumbing), and `views.py`, the migrations, `admin.py`, `urls.py` and the static scripts: web plumbing with no logic of this core.
- Not present in the modelled code, so not modelled: stripping `$` and `,` from amounts, `negate_amount`, description assembly from sub-description columns, rejection of duplicate column indices, and bulk re-categorisation that respects manual overrides.

=== FILE: categorize.dfy ===
/** Rule-based categorisation of a transaction description: one rule's
    test, and the walk over a user's categories in priority order that
    falls back to the "uncategorized" category. */
module Categorize {
  import opened Wrappers
  import opened Text
  import opened Models
  import opened Seqs

  /** A regular-expression search: does the pattern (first argument) match
      anywhere in the text (second argument)? The regex engine is not
      modelled, so callers supply it. */
  type Search = (string, string) -> bool

  /** Does `rule` match `desc`? The four text operators ignore case; the
      regex operator searches the raw description; an unknown `match_type`
      never matches. */
  function EvaluateRule(rule: CategoryRule, desc: string, search: Search): (b: bool)
    ensures OperatorOf(rule.matchType) == Some(Equals) ==>
      (b <==> EqualIgnoringCase(rule.matchText, desc))
    ensures OperatorOf(rule.matchType) == Some(Contains) ==>
      (b <==> exists i :: OccursAtIgnoringCase(desc, rule.matchText, i))
    ensures OperatorOf(rule.matchType) == Some(Regex) ==>
      (b <==> search(rule.matchText, desc))
    ensures OperatorOf(rule.matchType) == Some(StartsWith) ==>
      (b <==> OccursAtIgnoringCase(desc, rule.matchText, 0))
    ensures OperatorOf(rule.matchType) == Some(EndsWith) ==>
      (b <==> OccursAtIgnoringCase(desc, rule.matchText, |desc| - |rule.matchText|))
    ensures OperatorOf(rule.matchType) == None ==> !b
  {
    var t := rule.matchText;
    match OperatorOf(rule.matchType)
    case None => false
    case Some(op) =>
      match op
      case Equals =>
        LowerEqual(t, desc);
        Lower(t) == Lower(desc)
      case Contains =>
        forall i ensures OccursAt(Lower(desc), Lower(t), i) <==> OccursAtIgnoringCase(desc, t, i) {
          LowerOccurs(desc, t, i);
        }
        HasSubstring(Lower(desc), Lower(t))
      case Regex =>
        search(t, desc)
      case StartsWith =>
        LowerOccurs(desc, t, 0);
        HasPrefix(Lower(desc), Lower(t))
      case EndsWith =>
        LowerOccurs(desc, t, |desc| - |t|);
        HasSuffix(Lower(desc), Lower(t))
  }

  /** Python's `any(...)` over a category's rules. */
  function AnyMatch(rules: seq<CategoryRule>, desc: string, search: Search): (b: bool)
    ensures b <==> exists r :: r in rules && EvaluateRule(r, desc, search)
  {
    if rules == [] then false
    else EvaluateRule(rules[0], desc, search) || AnyMatch(rules[1..], desc, search)
  }

  /** Some rule of category `c` matches `desc`. */
  predicate CategoryMatches(rules: seq<CategoryRule>, c: Category, desc: string, search: Search)
  {
    AnyMatch(RuleSet(rules, c.id), desc, search)
  }

  /** The position of the first element of `s` satisfying `m`, or `|s|`
      when there is none: the early `return` inside the `for` loop. */
  function FirstIndex<T>(s: seq<T>, m: T -> bool): (k: nat)
    ensures k <= |s|
    ensures forall j :: 0 <= j < k ==> !m(s[j])
    ensures k < |s| ==> m(s[k])
  {
    if s == [] then 0
    else if m(s[0]) then 0
    else 1 + FirstIndex(s[1..], m)
  }

  /** In a priority-ordered sequence, the first element satisfying `m`
      has the least priority among all elements satisfying `m`. */
  lemma FirstIsLeastPriority(cats: seq<Category>, m: Category -> bool)
    requires PriorityOrdered(cats)
    ensures var k := FirstIndex(cats, m);
      forall c :: c in cats && m(c) ==> k < |cats| && cats[k].priority <= c.priority
  {
    var k := FirstIndex(cats, m);
    forall c | c in cats && m(c) ensures k < |cats| && cats[k].priority <= c.priority {
      var j :| 0 <= j < |cats| && cats[j] == c;
      assert k <= j;
    }
  }

  /** The categoriser's test for one category, as a value `FirstIndex` takes. */
  function Matcher(rules: seq<CategoryRule>, desc: string, search: Search): Category -> bool
  {
    (c: Category) => CategoryMatches(rules, c, desc, search)
  }

  /** A category of `user` whose rules match `desc`. */
  predicate Candidate(s: Store, user: nat, c: Category, desc: string, search: Search)
  {
    c in s.categories && c.user == user && CategoryMatches(s.rules, c, desc, search)
  }

  /** The category assigned to `desc`: the first of the user's categories,
      in ascending priority, that has a matching rule; otherwise the
      fallback. */
  function GetCategory(s: Store, user: nat, desc: string, fallback: Category, search: Search): (r: Category)
    ensures r == fallback || Candidate(s, user, r, desc, search)
    ensures (exists c :: Candidate(s, user, c, desc, search)) ==> Candidate(s, user, r, desc, search)
    ensures (exists c :: Candidate(s, user, c, desc, search)) ==>
      forall c :: Candidate(s, user, c, desc, search) ==> r.priority <= c.priority
    ensures (forall c :: !Candidate(s, user, c, desc, search)) ==> r == fallback
  {
    var cats := UserCategories(s, user);
    var m := Matcher(s.rules, desc, search);
    var k := FirstIndex(cats, m);
    FirstIsLeastPriority(cats, m);
    assert forall c :: Candidate(s, user, c, desc, search) <==> c in cats && m(c);
    if k < |cats| then cats[k] else fallback
  }

  /** The walk stops at the first matching category: when the category at
      position `i` of the iteration order matches, the result is that one
      or an earlier one, never a later one. */
  lemma EarliestMatchWins(s: Store, user: nat, desc: string, fallback: Category, search: Search, i: nat)
    requires i < |UserCategories(s, user)|
    requires CategoryMatches(s.rules, UserCategories(s, user)[i], desc, search)
    ensures GetCategory(s, user, desc, fallback, search) in UserCategories(s, user)[..i + 1]
  {
    var cats := UserCategories(s, user);
    var k := FirstIndex(cats, Matcher(s.rules, desc, search));
    assert k <= i;
    assert cats[..i + 1][k] == cats[k];
  }

  /** A category none of whose rules is stored is never chosen, unless it
      is the fallback itself. */
  lemma EmptyRuleSetNeverMatches(s: Store, user: nat, desc: string, fallback: Category, search: Search, c: Category)
    requires RuleSet(s.rules, c.id) == []
    requires c != fallback
    ensures !CategoryMatches(s.rules, c, desc, search)
    ensures GetCategory(s, user, desc, fallback, search) != c
  {
  }

  /** The order of the rule table does not affect the result: `any` only
      asks whether some rule matches. */
  lemma RuleOrderIrrelevant(s1: Store, s2: Store, user: nat, desc: string, fallback: Category, search: Search)
    requires s1.categories == s2.categories
    requires multiset(s1.rules) == multiset(s2.rules)
    ensures GetCategory(s1, user, desc, fallback, search) == GetCategory(s2, user, desc, fallback, search)
  {
    SameMembers(s1.rules, s2.rules);
    var m1, m2 := Matcher(s1.rules, desc, search), Matcher(s2.rules, desc, search);
    forall c ensures m1(c) == m2(c) {
      assert forall x :: x in RuleSet(s1.rules, c.id) <==> x in RuleSet(s2.rules, c.id);
    }
    var cats := UserCategories(s1, user);
    var k1, k2 := FirstIndex(cats, m1), FirstIndex(cats, m2);
    assert k1 == k2;
  }

  /** Categories come first by priority, not by where they are stored: with
      "coffee" (priority 1) stored after "cof" (priority 2), a "coffee shop"
      description gets the priority-1 category. */
  lemma PriorityExample(search: Search, fallback: Category, a: Category, b: Category, s: Store, desc: string)
    requires a == Category(1, 7, "Coffee", 1) && b == Category(2, 7, "Cafe", 2)
    requires s == Store([b, a], [CategoryRule("coffee", "contains", 1), CategoryRule("cof", "contains", 2)])
    requires desc == "coffee shop"
    ensures GetCategory(s, 7, desc, fallback, search) == a
  {
    var ra := s.rules[0];
    assert ra in RuleSet(s.rules, 1);
    ContainsExample(ra, desc, search);
    assert Candidate(s, 7, a, desc, search);
    var r := GetCategory(s, 7, desc, fallback, search);
    assert r.priority <= a.priority;
    assert r in s.categories;
    assert r == b || r == a;
    assert b.priority == 2;
  }

  /** `contains "coffee"` matches "coffee shop". */
  lemma ContainsExample(ra: CategoryRule, desc: string, search: Search)
    requires ra == CategoryRule("coffee", "contains", 1)
    requires desc == "coffee shop"
    ensures EvaluateRule(ra, desc, search)
  {
    assert desc[0..6] == ra.matchText;
    assert OccursAtIgnoringCase(desc, ra.matchText, 0);
  }

  /** `starts_with "AMZN"` ignores case but anchors at the start. */
  lemma StartsWithExample(rule: CategoryRule, d1: string, d2: string, search: Search)
    requires rule == CategoryRule("AMZN", "starts_with", 1)
    requires d1 == "amzn marketplace pmt" && d2 == "pmt to amzn"
    ensures EvaluateRule(rule, d1, search)
    ensures !EvaluateRule(rule, d2, search)
  {
    assert OperatorOf(rule.matchType) == Some(StartsWith);
    assert d1[0..4] == "amzn";
    assert EqualIgnoringCase(rule.matchText, d1[0..4]);
    assert LowerChar(d2[0]) != LowerChar(rule.matchText[0]);
  }
}

=== FILE: models.dfy ===
/** The records of the transaction-ingest app: parse rules (the column
    schema of an uploaded file), categories and their match rules, and the
    table store the categoriser reads. */
module Models {
  import opened Wrappers
  import opened Seqs
  import Text

  /** A column schema ("parse rule"). Only `date_col` and `amount_col`
      are mandatory; the other columns, the header count and the delimiter
      may be left blank. */
  datatype ParseRule = ParseRule(
    name: string,
    dateFmt: string,
    csvDelim: Option<string>,
    startLine: Option<int>,
    dateCol: int,
    descCol: Option<int>,
    subDescCol: Option<int>,
    amountCol: int,
    txnTypeCol: Option<int>)

  /** A blank or non-negative optional integer field. */
  predicate NonNegativeOrBlank(f: Option<int>)
  {
    f.None? || f.value >= 0
  }

  /** Why a form rejects a text field. */
  datatype FieldError = Required | TooLong

  /** A text value a required `CharField` of at most `maxLen` characters
      can hold once its form has cleaned it: non-empty, within length, and
      with no surrounding whitespace. */
  predicate RequiredText(s: string, maxLen: nat)
  {
    Text.Stripped(s) && 1 <= |s| <= maxLen
  }

  /** A form's cleaning of a required text field: the input is stripped of
      surrounding whitespace, then a blank value is refused as required and
      an over-long one as too long. */
  function CleanRequired(raw: string, maxLen: nat): (r: Result<string, FieldError>)
    ensures r == Failure(Required) <==> !Text.NotBlank(raw)
    ensures r.Success? <==> Text.NotBlank(raw) && |Text.Strip(raw)| <= maxLen
    ensures r.Success? ==> RequiredText(r.value, maxLen) && exists i :: Text.StrippedAt(raw, r.value, i)
  {
    var v := Text.Strip(raw);
    if v == [] then Failure(Required)
    else if |v| > maxLen then Failure(TooLong)
    else Success(v)
  }

  /** A form's cleaning of a text field that may be left blank and is
      stored as null: a blank input becomes `None`, the rest is cleaned as
      a required field. */
  function CleanOptional(raw: string, maxLen: nat): (r: Result<Option<string>, FieldError>)
    ensures r == Success(None) <==> !Text.NotBlank(raw)
    ensures r.Failure? <==> Text.NotBlank(raw) && |Text.Strip(raw)| > maxLen
    ensures r.Failure? ==> r.error == TooLong
    ensures r.Success? && r.value.Some? ==> RequiredText(r.value.value, maxLen)
  {
    match CleanRequired(raw, maxLen)
    case Success(v) => Success(Some(v))
    case Failure(Required) => Success(None)
    case Failure(TooLong) => Failure(TooLong)
  }

  /** Exactly the values a required text field can hold clean back to
      themselves. */
  lemma CleanRequiredFixes(s: string, maxLen: nat)
    ensures CleanRequired(s, maxLen) == Success(s) <==> RequiredText(s, maxLen)
  {
  }

  /** Whitespace-only text is refused in every required text field: as a
      parse rule's name or date format, a category's name or a rule's
      text. A whitespace delimiter is never stored. */
  lemma BlankTextRefused(p: ParseRule, c: Category, r: CategoryRule, s: string)
    requires !Text.NotBlank(s)
    ensures p.name == s || p.dateFmt == s || p.csvDelim == Some(s) ==> !ParseRuleValid(p)
    ensures c.name == s ==> !CategoryValid(c)
    ensures r.matchText == s ==> !CategoryRuleValid(r)
  {
  }

  /** The field constraints a parse rule passes form validation with, on
      the cleaned values it is stored with: a name and a date format that
      are non-blank, stripped and within their length limits, a delimiter
      that is null or a single non-whitespace character, and no negative
      index or header count. */
  predicate ParseRuleValid(p: ParseRule)
  {
    && RequiredText(p.name, 50)
    && RequiredText(p.dateFmt, 30)
    && (p.csvDelim.Some? ==> RequiredText(p.csvDelim.value, 1))
    && NonNegativeOrBlank(p.startLine)
    && p.dateCol >= 0
    && NonNegativeOrBlank(p.descCol)
    && NonNegativeOrBlank(p.subDescCol)
    && p.amountCol >= 0
    && NonNegativeOrBlank(p.txnTypeCol)
  }

  /** The five ways a category rule can compare its text with a description. */
  datatype Operator = Equals | Contains | Regex | StartsWith | EndsWith

  /** The stored spelling of an operator. */
  function OperatorName(op: Operator): string
  {
    match op
    case Equals => "equals"
    case Contains => "contains"
    case Regex => "regex"
    case StartsWith => "starts_with"
    case EndsWith => "ends_with"
  }

  /** Reads a stored `match_type`; any other spelling is no operator at all. */
  function OperatorOf(s: string): (r: Option<Operator>)
    ensures r.Some? ==> OperatorName(r.value) == s
    ensures r.None? ==> forall op: Operator :: OperatorName(op) != s
  {
    if s == "equals" then Some(Equals)
    else if s == "contains" then Some(Contains)
    else if s == "regex" then Some(Regex)
    else if s == "starts_with" then Some(StartsWith)
    else if s == "ends_with" then Some(EndsWith)
    else None
  }

  /** Every operator reads back from its stored spelling. */
  lemma OperatorRoundTrip(op: Operator)
    ensures OperatorOf(OperatorName(op)) == Some(op)
  {
  }

  /** The `match_type` a new rule gets when none is chosen. */
  const DefaultMatchType: string := "contains"

  /** A user's category; lower priorities are evaluated first. */
  datatype Category = Category(id: nat, user: nat, name: string, priority: int)

  /** A match rule; `category` is the id of the one category owning it. */
  datatype CategoryRule = CategoryRule(matchText: string, matchType: string, category: nat)

  /** A category's cleaned name is non-blank and fits its column. */
  predicate CategoryValid(c: Category)
  {
    RequiredText(c.name, 100)
  }

  /** A rule's cleaned text is non-blank and fits its column, and its
      `match_type` is one of the choices (whose spellings all fit the
      column's 50 characters). */
  predicate CategoryRuleValid(r: CategoryRule)
  {
    RequiredText(r.matchText, 50) && OperatorOf(r.matchType).Some?
  }

  /** A rule created without choosing an operator. */
  function NewRule(text: string, category: nat): (r: CategoryRule)
    ensures OperatorOf(r.matchType) == Some(Contains)
    ensures r.matchText == text && r.category == category
    ensures CategoryRuleValid(r) <==> RequiredText(text, 50)
  {
    CategoryRule(text, DefaultMatchType, category)
  }

  /** The category and rule tables. */
  datatype Store = Store(categories: seq<Category>, rules: seq<CategoryRule>)

  /** The ids of the stored categories. */
  function CategoryIds(cats: seq<Category>): set<nat>
  {
    set c | c in cats :: c.id
  }

  /** Referential integrity: every rule names a stored category. */
  predicate Integrity(s: Store)
  {
    forall r :: r in s.rules ==> r.category in CategoryIds(s.categories)
  }

  /** Every stored category and rule passes its field validation, and
      every rule names a stored category. */
  predicate StoreValid(s: Store)
  {
    && Integrity(s)
    && (forall c :: c in s.categories ==> CategoryValid(c))
    && (forall r :: r in s.rules ==> CategoryRuleValid(r))
  }

  /** The `rule_set` of category `id`: its rules, in table order. */
  function RuleSet(rules: seq<CategoryRule>, id: nat): (r: seq<CategoryRule>)
    ensures forall x :: x in r <==> x in rules && x.category == id
  {
    Filter(rules, (x: CategoryRule) => x.category == id)
  }

  /** The categories are in ascending priority order. */
  predicate PriorityOrdered(cats: seq<Category>)
  {
    forall i, j :: 0 <= i < j < |cats| ==> cats[i].priority <= cats[j].priority
  }

  /** Putting a category no later in priority than any of `cats` in front
      of the ordered `cats` keeps them ordered. */
  lemma OrderedCons(c: Category, cats: seq<Category>)
    requires PriorityOrdered(cats)
    requires forall x :: x in cats ==> c.priority <= x.priority
    ensures PriorityOrdered([c] + cats)
  {
    forall i, j | 0 <= i < j < |[c] + cats|
      ensures ([c] + cats)[i].priority <= ([c] + cats)[j].priority
    {
      if i == 0 {
        assert ([c] + cats)[j] == cats[j - 1];
      }
    }
  }

  /** A priority no greater than the head of an ordered sequence is no
      greater than any of its categories. */
  lemma BelowHead(p: int, cats: seq<Category>)
    requires PriorityOrdered(cats)
    requires cats != [] ==> p <= cats[0].priority
    ensures forall x :: x in cats ==> p <= x.priority
  {
    forall x | x in cats ensures p <= x.priority {
      var j :| 0 <= j < |cats| && cats[j] == x;
    }
  }

  /** Whatever is in a permutation of `tail` plus `c` lies above `head`
      when `tail` and `c` do. */
  lemma PermutationAbove(head: Category, tail: seq<Category>, c: Category, rest: seq<Category>)
    requires forall x :: x in tail ==> head.priority <= x.priority
    requires head.priority <= c.priority
    requires multiset(rest) == multiset(tail) + multiset{c}
    ensures forall x :: x in rest ==> head.priority <= x.priority
  {
    forall x | x in rest ensures head.priority <= x.priority {
      assert x in multiset(rest);
      assert x == c || x in multiset(tail);
    }
  }

  /** Put `c` into the priority-ordered `cats`, before the first category
      of equal or higher priority. */
  function InsertByPriority(c: Category, cats: seq<Category>): (r: seq<Category>)
    requires PriorityOrdered(cats)
    ensures PriorityOrdered(r)
    ensures multiset(r) == multiset(cats) + multiset{c}
  {
    if cats == [] || c.priority <= cats[0].priority then
      BelowHead(c.priority, cats);
      OrderedCons(c, cats);
      [c] + cats
    else
      var head := cats[0];
      var rest := InsertByPriority(c, cats[1..]);
      assert cats == [head] + cats[1..];
      BelowHead(head.priority, cats[1..]);
      PermutationAbove(head, cats[1..], c, rest);
      OrderedCons(head, rest);
      [head] + rest
  }

  /** The queryset ordering `["priority"]`: a sort by priority. */
  function SortByPriority(cats: seq<Category>): (r: seq<Category>)
    ensures PriorityOrdered(r)
    ensures multiset(r) == multiset(cats)
  {
    if cats == [] then []
    else
      assert cats == [cats[0]] + cats[1..];
      InsertByPriority(cats[0], SortByPriority(cats[1..]))
  }

  /** `Category.objects.filter(user=user)`: the user's categories in
      ascending priority. */
  function UserCategories(s: Store, user: nat): (r: seq<Category>)
    ensures PriorityOrdered(r)
    ensures forall c :: c in r <==> c in s.categories && c.user == user
    ensures multiset(r) == multiset(Filter(s.categories, (c: Category) => c.user == user))
  {
    var mine := Filter(s.categories, (c: Category) => c.user == user);
    var r := SortByPriority(mine);
    SameMembers(r, mine);
    r
  }

  /** Deleting category `id`; its rules go with it (`on_delete=CASCADE`). */
  function DeleteCategory(s: Store, id: nat): (r: Store)
    ensures forall c :: c in r.categories <==> c in s.categories && c.id != id
    ensures forall x :: x in r.rules <==> x in s.rules && x.category != id
    ensures RuleSet(r.rules, id) == []
    ensures forall other :: other != id ==> RuleSet(r.rules, other) == RuleSet(s.rules, other)
    ensures Integrity(s) ==> Integrity(r)
    ensures StoreValid(s) ==> StoreValid(r)
  {
    var r := Store(Filter(s.categories, (c: Category) => c.id != id),
                   Filter(s.rules, (x: CategoryRule) => x.category != id));
    forall other | other != id
      ensures RuleSet(r.rules, other) == RuleSet(s.rules, other)
    {
      FilterFilter(s.rules, (x: CategoryRule) => x.category != id, (x: CategoryRule) => x.category == other);
    }
    assert Integrity(s) ==> Integrity(r) by {
      if Integrity(s) {
        forall x | x in r.rules ensures x.category in CategoryIds(r.categories) {
          var c :| c in s.categories && c.id == x.category;
          assert c in r.categories;
        }
      }
    }
    r
  }
}

=== FILE: seqs.dfy ===
/** Order-preserving selection from a sequence, the shape of a Django
    queryset `filter(...)` over rows kept in a fixed order. */
module Seqs {

  /** The elements of `s` that satisfy `keep`, in their original order. */
  function Filter<T(!new)>(s: seq<T>, keep: T -> bool): (r: seq<T>)
    ensures |r| <= |s|
    ensures forall x :: x in r <==> x in s && keep(x)
    ensures (forall i :: 0 <= i < |s| ==> keep(s[i])) ==> r == s
    ensures (forall i :: 0 <= i < |s| ==> !keep(s[i])) ==> r == []
  {
    if s == [] then []
    else if keep(s[0]) then [s[0]] + Filter(s[1..], keep)
    else Filter(s[1..], keep)
  }

  /** Filtering twice, with a second test that implies the first, is the
      same as filtering once with the second test. */
  lemma {:induction false} FilterFilter<T(!new)>(s: seq<T>, f: T -> bool, g: T -> bool)
    requires forall x :: g(x) ==> f(x)
    ensures Filter(Filter(s, f), g) == Filter(s, g)
  {
    if s != [] {
      FilterFilter(s[1..], f, g);
      if f(s[0]) {
        assert Filter(s, f) == [s[0]] + Filter(s[1..], f);
        assert ([s[0]] + Filter(s[1..], f))[1..] == Filter(s[1..], f);
      }
    }
  }

  /** Two sequences that are permutations of each other have the same members. */
  lemma SameMembers<T>(a: seq<T>, b: seq<T>)
    requires multiset(a) == multiset(b)
    ensures forall x :: x in a <==> x in b
  {
    forall x ensures x in a <==> x in b {
      assert x in a <==> x in multiset(a);
      assert x in b <==> x in multiset(b);
    }
  }
}

=== FILE: text.dfy ===
/** Character-level text tests behind the rule operators and the form
    fields: lower-casing, stripping, and the prefix, suffix and substring
    tests of Python's `str`. */
module Text {

  /** Lower-case one character. Only ASCII letters are folded. */
  function LowerChar(c: char): char
  {
    if 'A' <= c <= 'Z' then (c as int + 32) as char else c
  }

  /** Lower-case every character of `s`. */
  function Lower(s: string): (r: string)
    ensures |r| == |s|
    ensures forall i :: 0 <= i < |s| ==> r[i] == LowerChar(s[i])
  {
    if s == [] then [] else [LowerChar(s[0])] + Lower(s[1..])
  }

  /** `a` and `b` agree once case is ignored, character by character. */
  predicate EqualIgnoringCase(a: string, b: string)
  {
    |a| == |b| && forall i :: 0 <= i < |a| ==> LowerChar(a[i]) == LowerChar(b[i])
  }

  /** `p` occurs in `s` starting at index `i`. */
  predicate OccursAt(s: string, p: string, i: int)
  {
    0 <= i && i + |p| <= |s| && s[i..i + |p|] == p
  }

  /** `p` occurs in `s` at index `i`, ignoring case. */
  predicate OccursAtIgnoringCase(s: string, p: string, i: int)
  {
    0 <= i && i + |p| <= |s| && EqualIgnoringCase(p, s[i..i + |p|])
  }

  /** Python's `s.startswith(p)`, comparing character by character. */
  function HasPrefix(s: string, p: string): (b: bool)
    ensures b <==> OccursAt(s, p, 0)
  {
    if p == [] then true
    else if s == [] then false
    else s[0] == p[0] && HasPrefix(s[1..], p[1..])
  }

  /** Python's `s.endswith(p)`: the tail of `s` as long as `p` starts with `p`. */
  function HasSuffix(s: string, p: string): (b: bool)
    ensures b <==> OccursAt(s, p, |s| - |p|)
  {
    |p| <= |s| && HasPrefix(s[|s| - |p|..], p)
  }

  /** Python's `p in s`: try every starting position from the left. */
  function HasSubstring(s: string, p: string): (b: bool)
    ensures b <==> exists i :: OccursAt(s, p, i)
    decreases |s|
  {
    if HasPrefix(s, p) then true
    else if s == [] then false
    else
      var rest := HasSubstring(s[1..], p);
      assert rest ==> exists i :: OccursAt(s, p, i) by {
        if rest {
          var j :| OccursAt(s[1..], p, j);
          assert s[1..][j..j + |p|] == s[j + 1..j + 1 + |p|];
          assert OccursAt(s, p, j + 1);
        }
      }
      assert (exists i :: OccursAt(s, p, i)) ==> rest by {
        if exists i :: OccursAt(s, p, i) {
          var i :| OccursAt(s, p, i);
          assert i != 0;
          assert s[1..][i - 1..i - 1 + |p|] == s[i..i + |p|];
          assert OccursAt(s[1..], p, i - 1);
        }
      }
      rest
  }

  /** Python's `c.isspace()`, over the ASCII range: space, tab, line feed,
      vertical tab, form feed, carriage return and the four separators
      0x1C-0x1F. */
  predicate IsSpace(c: char)
  {
    c == ' ' || '\t' <= c <= '\r' || '\U{1C}' <= c <= '\U{1F}'
  }

  /** Some character of `s` is not whitespace. */
  predicate NotBlank(s: string)
  {
    exists i :: 0 <= i < |s| && !IsSpace(s[i])
  }

  /** `s` neither starts nor ends with whitespace. */
  predicate Stripped(s: string)
  {
    s == [] || (!IsSpace(s[0]) && !IsSpace(s[|s| - 1]))
  }

  /** `r` is `s` with only whitespace cut from before index `i` and from
      after `r`'s end. */
  predicate StrippedAt(s: string, r: string, i: int)
  {
    && 0 <= i && i + |r| <= |s| && s[i..i + |r|] == r
    && (forall k :: 0 <= k < i ==> IsSpace(s[k]))
    && (forall k :: i + |r| <= k < |s| ==> IsSpace(s[k]))
  }

  /** Python's `s.lstrip()`. */
  function TrimStart(s: string): (r: string)
    ensures |r| <= |s|
    ensures r == s[|s| - |r|..]
    ensures forall k :: 0 <= k < |s| - |r| ==> IsSpace(s[k])
    ensures r == [] || !IsSpace(r[0])
  {
    if s != [] && IsSpace(s[0]) then TrimStart(s[1..]) else s
  }

  /** Python's `s.rstrip()`. */
  function TrimEnd(s: string): (r: string)
    ensures |r| <= |s|
    ensures r == s[..|r|]
    ensures forall k :: |r| <= k < |s| ==> IsSpace(s[k])
    ensures r == [] || !IsSpace(r[|r| - 1])
  {
    if s != [] && IsSpace(s[|s| - 1]) then TrimEnd(s[..|s| - 1]) else s
  }

  /** Cutting leading whitespace from `s` to get `t`, and then trailing
      whitespace from `t` to get `r`, leaves `s` stripped at the count of
      leading whitespace. */
  lemma TrimBoth(s: string, t: string, r: string)
    requires |t| <= |s| && t == s[|s| - |t|..]
    requires forall k :: 0 <= k < |s| - |t| ==> IsSpace(s[k])
    requires |r| <= |t| && r == t[..|r|]
    requires forall k :: |r| <= k < |t| ==> IsSpace(t[k])
    ensures StrippedAt(s, r, |s| - |t|)
  {
    var i := |s| - |t|;
    assert t == s[i..];
    assert s[i..i + |r|] == s[i..][..|r|] == r;
    forall k | i + |r| <= k < |s| ensures IsSpace(s[k]) {
      assert |r| <= k - i < |t| && t[k - i] == s[k];
    }
  }

  /** Whatever is cut around `r` is whitespace, so a non-blank `s` leaves
      `r` non-empty. */
  lemma StrippedKeepsNonBlank(s: string, r: string, i: int)
    requires StrippedAt(s, r, i)
    ensures NotBlank(s) ==> r != []
  {
    if NotBlank(s) {
      var j :| 0 <= j < |s| && !IsSpace(s[j]);
      assert i <= j < i + |r|;
    }
  }

  /** Python's `s.strip()`: the text between the leading and the trailing
      whitespace, empty exactly when `s` is blank. */
  function Strip(s: string): (r: string)
    ensures Stripped(r)
    ensures exists i :: StrippedAt(s, r, i)
    ensures r == [] <==> !NotBlank(s)
  {
    var t := TrimStart(s);
    var r := TrimEnd(t);
    TrimBoth(s, t, r);
    StrippedKeepsNonBlank(s, r, |s| - |t|);
    assert r != [] ==> !IsSpace(s[|s| - |t|]);
    r
  }

  /** Lower-cased strings are equal exactly when the originals are equal
      ignoring case. */
  lemma LowerEqual(a: string, b: string)
    ensures Lower(a) == Lower(b) <==> EqualIgnoringCase(a, b)
  {
    if EqualIgnoringCase(a, b) {
      assert forall i :: 0 <= i < |a| ==> Lower(a)[i] == Lower(b)[i];
    }
  }

  /** Lower-casing commutes with taking a slice. */
  lemma LowerSlice(s: string, i: int, j: int)
    requires 0 <= i <= j <= |s|
    ensures Lower(s)[i..j] == Lower(s[i..j])
  {
    var a, b := Lower(s)[i..j], Lower(s[i..j]);
    forall k | 0 <= k < |a| ensures a[k] == b[k] {
      assert a[k] == Lower(s)[i + k] == LowerChar(s[i + k]);
      assert b[k] == LowerChar(s[i..j][k]);
    }
  }

  /** An occurrence in the lower-cased text is an occurrence ignoring case. */
  lemma LowerOccurs(s: string, p: string, i: int)
    ensures OccursAt(Lower(s), Lower(p), i) <==> OccursAtIgnoringCase(s, p, i)
  {
    if 0 <= i && i + |p| <= |s| {
      LowerSlice(s, i, i + |p|);
      LowerEqual(p, s[i..i + |p|]);
    }
  }
}

=== FILE: upload.dfy ===
/** Validation of an uploaded transaction file against a parse rule: skip
    the header rows, then check every data row's width, date and amount,
    stopping at the first error. */
module Upload {
  import opened Wrappers
  import opened Models

  /** One CSV row, already split into fields. */
  type Row = seq<string>

  /** Why an upload is rejected. Lines are counted from the start of the
      file, beginning at the header count for the first data row. */
  datatype UploadError =
    | WidthMismatch(line: int)
    | DateError(line: int)
    | AmountError(line: int, col: int, val: string)
    | IndexError(line: int)
    | Internal

  /** The parsers the validator calls: does a date field parse under a
      format (`strptime`), and does an amount field parse as a number
      (`float`)? Neither is modelled; callers supply them. */
  datatype Parsers = Parsers(dateParses: (string, string) -> bool, amountParses: string -> bool)

  /** Python's `row[i]`: negative indices count from the end, and an index
      outside the row raises `IndexError` (here `None`). */
  function PyIndex(row: Row, i: int): (r: Option<string>)
    ensures r.Some? <==> -|row| <= i < |row|
    ensures r.Some? ==> r.value == row[i % |row|]
  {
    if 0 <= i < |row| then Some(row[i])
    else if -|row| <= i < 0 then Some(row[|row| + i])
    else None
  }

  /** The date and amount checks on one data row at `line`, in the order
      the validator runs them. */
  function CheckRow(rule: ParseRule, row: Row, line: int, p: Parsers): (r: Option<UploadError>)
    ensures r.None? <==>
      && PyIndex(row, rule.dateCol).Some?
      && p.dateParses(PyIndex(row, rule.dateCol).value, rule.dateFmt)
      && PyIndex(row, rule.amountCol).Some?
      && p.amountParses(PyIndex(row, rule.amountCol).value)
    ensures r.Some? ==> !r.value.WidthMismatch? && !r.value.Internal?
    ensures r.Some? ==> r.value.line == line
    ensures r.Some? && r.value.DateError? ==> PyIndex(row, rule.dateCol).Some?
    ensures r.Some? && r.value.AmountError? ==>
      && PyIndex(row, rule.dateCol).Some?
      && p.dateParses(PyIndex(row, rule.dateCol).value, rule.dateFmt)
      && PyIndex(row, rule.amountCol) == Some(r.value.val)
      && r.value.col == rule.amountCol
    ensures PyIndex(row, rule.dateCol).None? ==> r == Some(IndexError(line))
    ensures
      && PyIndex(row, rule.dateCol).Some?
      && !p.dateParses(PyIndex(row, rule.dateCol).value, rule.dateFmt)
      ==> r == Some(DateError(line))
    ensures
      && PyIndex(row, rule.dateCol).Some?
      && p.dateParses(PyIndex(row, rule.dateCol).value, rule.dateFmt)
      && PyIndex(row, rule.amountCol).None?
      ==> r == Some(IndexError(line))
    ensures
      && PyIndex(row, rule.dateCol).Some?
      && p.dateParses(PyIndex(row, rule.dateCol).value, rule.dateFmt)
      && PyIndex(row, rule.amountCol).Some?
      && !p.amountParses(PyIndex(row, rule.amountCol).value)
      ==> r == Some(AmountError(line, rule.amountCol, PyIndex(row, rule.amountCol).value))
  {
    match PyIndex(row, rule.dateCol)
    case None => Some(IndexError(line))
    case Some(date) =>
      if !p.dateParses(date, rule.dateFmt) then Some(DateError(line))
      else
        match PyIndex(row, rule.amountCol)
        case None => Some(IndexError(line))
        case Some(amount) =>
          if !p.amountParses(amount) then Some(AmountError(line, rule.amountCol, amount))
          else None
  }

  /** The row loop: `width` is the previous row's field count (0 before the
      first row, and 0 means unconstrained), `line` the current line. */
  function ScanRows(rule: ParseRule, rows: seq<Row>, line: int, width: nat, p: Parsers): (r: Result<seq<Row>, UploadError>)
    ensures r.Success? ==> r.value == rows
    ensures r.Failure? ==> !r.error.Internal? && line <= r.error.line < line + |rows|
    ensures r.Failure? && r.error.WidthMismatch? && width == 0 ==> r.error.line > line
  {
    if rows == [] then Success([])
    else
      var row := rows[0];
      if width != |row| && width != 0 then Failure(WidthMismatch(line))
      else match CheckRow(rule, row, line, p)
        case Some(e) => Failure(e)
        case None =>
          match ScanRows(rule, rows[1..], line + 1, |row|, p)
          case Success(rest) =>
            assert rows == [row] + rest;
            Success([row] + rest)
          case Failure(e) => Failure(e)
  }

  /** How many header rows are consumed: `range(n)` is empty for negative `n`. */
  function HeaderCount(n: int): nat
  {
    if n < 0 then 0 else n
  }

  /** `FileSelectForm.validate_upload` for an existing parse rule. A blank
      header count and a file with fewer rows than the header count both
      end in the generic internal error. */
  function ValidateUpload(rule: ParseRule, file: seq<Row>, p: Parsers): (r: Result<seq<Row>, UploadError>)
    ensures rule.startLine.None? ==> r == Failure(Internal)
    ensures rule.startLine.Some? && |file| < HeaderCount(rule.startLine.value) ==> r == Failure(Internal)
    ensures r.Success? ==> rule.startLine.Some? && r.value == file[HeaderCount(rule.startLine.value)..]
    ensures r.Failure? && !r.error.Internal? ==>
      && rule.startLine.Some?
      && var n := rule.startLine.value;
      && n <= r.error.line < n + |file| - HeaderCount(n)
      && (r.error.WidthMismatch? ==> r.error.line > n)
    ensures r == Failure(Internal) ==>
      rule.startLine.None? || |file| < HeaderCount(rule.startLine.value)
  {
    match rule.startLine
    case None => Failure(Internal)
    case Some(n) =>
      if |file| < HeaderCount(n) then Failure(Internal)
      else ScanRows(rule, file[HeaderCount(n)..], n, 0, p)
  }

  /** The whole form check: a parse rule that is not found also ends in the
      internal error. */
  function ValidateChoice(found: Option<ParseRule>, file: seq<Row>, p: Parsers): (r: Result<seq<Row>, UploadError>)
    ensures r == Failure(Internal) <==>
      found.None? || found.value.startLine.None? ||
      |file| < HeaderCount(found.value.startLine.value)
    ensures r.Success? ==>
      found.Some? && r.value == file[HeaderCount(found.value.startLine.value)..]
  {
    match found
    case None => Failure(Internal)
    case Some(rule) => ValidateUpload(rule, file, p)
  }

  // An independent, index-based statement of what the loop checks.

  /** The field count the loop remembers before data row `k`. */
  function PrevWidth(data: seq<Row>, k: nat): nat
    requires k <= |data|
  {
    if k == 0 then 0 else |data[k - 1]|
  }

  /** The verdict on data row `k` alone, with data row 0 at line `line0`. */
  function Verdict(rule: ParseRule, data: seq<Row>, k: nat, line0: int, p: Parsers): Option<UploadError>
    requires k < |data|
  {
    var w := PrevWidth(data, k);
    if w != 0 && w != |data[k]| then Some(WidthMismatch(line0 + k))
    else CheckRow(rule, data[k], line0 + k, p)
  }

  /** Data row `k` is the first row with a verdict against it. */
  predicate FirstFailure(rule: ParseRule, data: seq<Row>, k: nat, line0: int, p: Parsers)
  {
    && k < |data|
    && Verdict(rule, data, k, line0, p).Some?
    && forall j :: 0 <= j < k ==> Verdict(rule, data, j, line0, p).None?
  }

  /** The loop, started at data row `k`, accepts the rest exactly when no
      later row has a verdict against it, and otherwise reports the verdict
      on the first such row. */
  lemma {:induction false} ScanRowsFrom(rule: ParseRule, data: seq<Row>, k: nat, line0: int, p: Parsers)
    requires k <= |data|
    ensures var r := ScanRows(rule, data[k..], line0 + k, PrevWidth(data, k), p);
      && (r.Success? <==> forall j :: k <= j < |data| ==> Verdict(rule, data, j, line0, p).None?)
      && forall j :: (k <= j < |data| && Verdict(rule, data, j, line0, p).Some? &&
           forall i :: k <= i < j ==> Verdict(rule, data, i, line0, p).None?) ==>
           r == Failure(Verdict(rule, data, j, line0, p).value)
    decreases |data| - k
  {
    if k < |data| {
      var rows := data[k..];
      var r := ScanRows(rule, rows, line0 + k, PrevWidth(data, k), p);
      ScanRowsFrom(rule, data, k + 1, line0, p);
      assert rows[0] == data[k];
      assert rows[1..] == data[k + 1..];
      var rest := ScanRows(rule, data[k + 1..], line0 + (k + 1), PrevWidth(data, k + 1), p);
      match Verdict(rule, data, k, line0, p)
      case Some(e) =>
        assert r == Failure(e);
      case None =>
        assert r == (match rest
                     case Success(v) => Success([data[k]] + v)
                     case Failure(e) => Failure(e));
    }
  }

  /** Validation succeeds exactly when every data row passes, and otherwise
      fails with the verdict on the first failing data row, reported at the
      header count plus its position. */
  lemma ValidateUploadSpec(rule: ParseRule, file: seq<Row>, p: Parsers, n: int)
    requires rule.startLine == Some(n) && |file| >= HeaderCount(n)
    ensures var data := file[HeaderCount(n)..];
      && (ValidateUpload(rule, file, p).Success? <==>
            forall k :: 0 <= k < |data| ==> Verdict(rule, data, k, n, p).None?)
      && forall k :: FirstFailure(rule, data, k, n, p) ==>
           ValidateUpload(rule, file, p) == Failure(Verdict(rule, data, k, n, p).value) &&
           Verdict(rule, data, k, n, p).value.line == n + k
  {
    var data := file[HeaderCount(n)..];
    ScanRowsFrom(rule, data, 0, n, p);
    assert data[0..] == data;
  }

  /** Once the loop stops at an error, rows after it are never read:
      appending rows cannot change the outcome. */
  lemma {:induction false} ScanRowsStops(rule: ParseRule, rows: seq<Row>, more: seq<Row>, line: int, width: nat, p: Parsers)
    requires ScanRows(rule, rows, line, width, p).Failure?
    ensures ScanRows(rule, rows + more, line, width, p) == ScanRows(rule, rows, line, width, p)
  {
    assert rows != [];
    assert (rows + more)[0] == rows[0];
    assert (rows + more)[1..] == rows[1..] + more;
    var row := rows[0];
    if !(width != |row| && width != 0) && CheckRow(rule, row, line, p).None? {
      ScanRowsStops(rule, rows[1..], more, line + 1, |row|, p);
    }
  }

  /** Abort on first error: after a row-level error, rows appended to the
      file are never examined and the error stays the same. */
  lemma AbortOnFirstError(rule: ParseRule, file: seq<Row>, more: seq<Row>, p: Parsers)
    requires ValidateUpload(rule, file, p).Failure?
    requires !ValidateUpload(rule, file, p).error.Internal?
    ensures ValidateUpload(rule, file + more, p) == ValidateUpload(rule, file, p)
  {
    var h := HeaderCount(rule.startLine.value);
    assert (file + more)[h..] == file[h..] + more;
    ScanRowsStops(rule, file[h..], more, rule.startLine.value, 0, p);
  }

  /** The header rows are consumed unread: files that differ only there
      get the same outcome. */
  lemma HeaderRowsUnread(rule: ParseRule, f1: seq<Row>, f2: seq<Row>, p: Parsers, n: int)
    requires rule.startLine == Some(n)
    requires |f1| >= HeaderCount(n) && |f2| >= HeaderCount(n)
    requires f1[HeaderCount(n)..] == f2[HeaderCount(n)..]
    ensures ValidateUpload(rule, f1, p) == ValidateUpload(rule, f2, p)
  {
  }

  /** For a rule whose columns are non-negative, the index error means the
      row is too short for the date column, or the date parsed and the row
      is too short for the amount column. */
  lemma IndexErrorMeansShortRow(rule: ParseRule, row: Row, line: int, p: Parsers)
    requires ParseRuleValid(rule)
    ensures CheckRow(rule, row, line, p) == Some(IndexError(line)) <==>
      rule.dateCol >= |row| ||
      (p.dateParses(row[rule.dateCol], rule.dateFmt) && rule.amountCol >= |row|)
  {
  }

  /** A three-row file whose second row is one field short is rejected at
      that row's line, with no rows returned. */
  lemma WidthExample(rule: ParseRule, p: Parsers)
    requires rule.startLine == Some(0) && rule.dateCol == 0 && rule.amountCol == 2
    requires p.dateParses("2024-01-01", rule.dateFmt) && p.amountParses("1.5")
    ensures ValidateUpload(rule, [["2024-01-01", "a", "1.5"], ["2024-01-01", "b"], ["2024-01-01", "c", "1.5"]], p)
      == Failure(WidthMismatch(1))
  {
    var file := [["2024-01-01", "a", "1.5"], ["2024-01-01", "b"], ["2024-01-01", "c", "1.5"]];
    assert file[0..] == file;
    assert CheckRow(rule, file[0], 0, p).None?;
    assert ScanRows(rule, file[1..], 1, 3, p) == Failure(WidthMismatch(1));
    assert ScanRows(rule, file, 0, 0, p) == Failure(WidthMismatch(1));
  }

  /** A file shorter than its header count is the internal error. */
  lemma ShortFileExample(rule: ParseRule, p: Parsers)
    requires rule.startLine == Some(2)
    ensures ValidateUpload(rule, [["Date", "Amount"]], p) == Failure(Internal)
  {
  }

  // The accepted rows as the source keeps them: appended to `csv_rows`, a
  // list declared on the form class and so shared by every form instance.

  /** The rows the loop appends before it stops: every row that passed all
      its checks. */
  function AppendedRows(rule: ParseRule, rows: seq<Row>, line: int, width: nat, p: Parsers): (r: seq<Row>)
    ensures r <= rows
    ensures ScanRows(rule, rows, line, width, p).Success? ==> r == rows
    ensures ScanRows(rule, rows, line, width, p).Failure? ==> |r| < |rows|
    ensures ScanRows(rule, rows, line, width, p).Failure? ==>
      r == rows[..ScanRows(rule, rows, line, width, p).error.line - line]
  {
    if rows == [] then []
    else
      var row := rows[0];
      if width != |row| && width != 0 then []
      else if CheckRow(rule, row, line, p).Some? then []
      else
        var rest := AppendedRows(rule, rows[1..], line + 1, |row|, p);
        assert rows == [row] + rows[1..];
        var scan := ScanRows(rule, rows[1..], line + 1, |row|, p);
        assert scan.Failure? ==> [row] + rest == rows[..scan.error.line - line] by {
          if scan.Failure? {
            assert rest == rows[1..][..scan.error.line - (line + 1)];
          }
        }
        [row] + rest
  }

  /** `csv_rows` after one call of `validate_upload`, given its contents
      `shared` before the call: the call appends the rows it accepted, even
      when a later row then fails. */
  function SharedRowsAfter(shared: seq<Row>, rule: ParseRule, file: seq<Row>, p: Parsers): (r: seq<Row>)
    ensures shared <= r
    ensures ValidateUpload(rule, file, p).Success? ==> r == shared + ValidateUpload(rule, file, p).value
    ensures ValidateUpload(rule, file, p) == Failure(Internal) ==> r == shared
    ensures
      var v := ValidateUpload(rule, file, p);
      v.Failure? && !v.error.Internal? ==>
        var n := rule.startLine.value;
        r == shared + file[HeaderCount(n)..][..v.error.line - n]
  {
    match rule.startLine
    case None => shared
    case Some(n) =>
      if |file| < HeaderCount(n) then shared
      else shared + AppendedRows(rule, file[HeaderCount(n)..], n, 0, p)
  }

  /** The shared list leaks rows: a first upload that fails on its second
      row still leaves its first row in `csv_rows`, so the next upload's
      list holds a row that upload never contained. The returned rows of
      `ValidateUpload` hold no such row. */
  lemma SharedRowsLeak(rule: ParseRule, p: Parsers, bad: seq<Row>, good: seq<Row>)
    requires rule.startLine == Some(0) && rule.dateCol == 0 && rule.amountCol == 1
    requires p.dateParses("d", rule.dateFmt) && p.amountParses("1")
    requires bad == [["d", "1"], ["d"]] && good == [["d", "1", "x"]]
    ensures ValidateUpload(rule, bad, p) == Failure(WidthMismatch(1))
    ensures ValidateUpload(rule, good, p) == Success(good)
    ensures SharedRowsAfter(SharedRowsAfter([], rule, bad, p), rule, good, p) == [["d", "1"], ["d", "1", "x"]]
  {
    assert bad[0..] == bad && good[0..] == good;
    assert bad[1..] == [["d"]];
    assert CheckRow(rule, bad[0], 0, p).None?;
    assert CheckRow(rule, good[0], 0, p).None?;
    assert good[1..] == [];
    assert ScanRows(rule, bad[1..], 1, 2, p) == Failure(WidthMismatch(1));
    assert AppendedRows(rule, bad[1..], 1, 2, p) == [];
    assert AppendedRows(rule, bad, 0, 0, p) == [["d", "1"]];
  }
}

=== FILE: wrappers.dfy ===
/** Failure-carrying values shared by the other modules. */
module Wrappers {

  /** An optional value: the model's stand-in for Python's `None`. */
  datatype Option<+T> = None | Some(value: T)

  /** The outcome of an operation that either yields a value or raises. */
  datatype Result<+R, +E> = Success(value: R) | Failure(error: E)
}
